=== FILE: README.md ===
# flux-fine-tuner training wrapper: a Dafny model of its decision rules

`train.py` wraps a LoRA fine-tuning run for the FLUX.1-dev image model. Around
calls into CUDA, `pget`, `tar`, the Hugging Face and W&B clients and the
ai-toolkit trainer, it makes a small number of pure decisions. This project
models those decisions as Dafny functions over plain values and proves what
they guarantee:

- **LoRA URL guard and downloads** (`LoraDownload`). Both download helpers
  accept a URL exactly when it starts with `https://huggingface.co` and
  contains `.safetensors` anywhere. The resume download always lands in
  `input_images/pretrained_lora/pretrained_lora.safetensors`. A file missing
  after `pget` raises `RuntimeError`. A `pget` run is a `Fetch`: its exit
  status plus the set of paths that exist afterwards.
- **Order at the top of `train`** (`Train`). A skip-training URL downloads
  and returns first, so the missing-images error and the both-URLs conflict
  error are never reached on that path. The conflict error can never be
  raised at all. The resume download comes before the layer check.
- **Gradient checkpointing and quantization** (`MemoryPlan`). GPU memory is
  an integer parameter.
- **Training configuration** (`TrainConfig`). The nested settings mapping is
  a record. The model covers the save and sample cadences, where `steps + 1`
  means never. It also covers rank equal to alpha, the `network_kwargs`
  merge that never clobbers the other key, and dropping an empty trigger
  word.
- **Zip extraction** (`ZipExtract`). The loop skips `__MACOSX/` and `._`
  entries and counts what it extracts.
- **Model-card variables** (`HfReadme`). These are the title rule, the
  trigger-word sections and the training-details block.
- **Job directory** (`JobOutputs`). This covers which sample images are new
  at each step, which weights file is saved after a checkpoint, and the
  pruning before the directory is archived.

`Outcomes` holds the error vocabulary, together with the Python exception
class each error is raised as. `Text` holds the string built-ins the rules
use: `startswith`, `in`, `split`, `replace`, `title`, `strip`, `str(int)` and
string ordering. `Paths` holds the fixed locations.

Optional string parameters are `Option<string>`. Python's `if x:` on them is
`IsTruthy`: given and non-empty. The skip-training URL is tested with
`is not None`, while the resume URL is tested by truthiness, and the model
keeps that difference. An empty skip URL therefore reaches the URL guard and
fails there. An empty resume URL trains from scratch. A W&B key counts as
given when it is truthy. Cog's secret type is a pydantic secret string,
whose truthiness is its length.

## Behaviour of the code as written

- The conflict check at train.py:256-258 is meant to reject a run given
  both a resume URL and a skip-training URL. It never fires: the skip URL
  returns at train.py:248-252, before the check is reached. The model
  follows the code, and `Train.ConflictErrorUnreachable` proves the check
  dead.
- The URL guard is a prefix test plus a substring test. It accepts
  `https://huggingface.co.example.org/lora.safetensors` and
  `.../lora.safetensors.bin` (`LoraDownload.GuardExamples`).
- Only the start of the entry name is tested for `._`. So `photos/._cat.jpg`
  is extracted (`ZipExtract.PrefixOnlyAtTop`).
- The W&B run records `is_fine_tuning_mode` with `is not None`. An empty
  resume URL is therefore recorded as fine-tuning while the run trains from
  scratch (`Train.EmptyResumeUrlRecordedAsFineTuning`).

## Model

| member | source | states |
|---|---|---|
| Text.Contains | train.py:599-602 | the scan answers true exactly when the needle occurs at some index of the string |
| Text.Split | train.py:556-557 | `split` on one character gives at least one part, no part holds the separator, joining the parts restores the string, and there are two or more parts exactly when the separator occurs |
| Text.SplitJoin | train.py:556-557 | splitting a joined list of separator-free parts gives the list back |
| Text.ReplaceChar | train.py:556 | `replace("-", " ")` keeps the length, maps every dash to a space and leaves every other character alone |
| Text.TitleCase | train.py:556 | `title()` keeps the length and non-letters; it upper-cases a letter that starts a word (first, or after a non-letter) and lower-cases every other letter |
| Text.TitleCaseIdempotent | train.py:556 | title-casing a title-cased string changes nothing |
| Text.Strip | train.py:282 | `strip()` returns a slice of its input with only whitespace cut from either end, and no whitespace at either end of the result |
| Text.StripUnpadded | train.py:282 | `strip()` leaves a string with no whitespace at either end unchanged |
| Text.Decimal | train.py:549 | `str(n)` is non-empty, all decimal digits, and has no leading zero unless n is 0 |
| Text.DecimalRoundTrip | train.py:549 | reading the rendered digits back gives the number |
| LoraDownload.CheckLoraUrl | train.py:622-628 | a URL passes exactly when it begins with the hub prefix and `.safetensors` occurs somewhere in it; otherwise a `ValueError` (the model's error records the URL; the source's message is fixed text) |
| LoraDownload.DownloadPretrainedLora | train.py:620-646 | success exactly when the URL passes, `pget` succeeds and the resume path exists afterwards; the result is always that fixed path; an accepted URL whose file is missing raises `RuntimeError`; a refused URL raises `ValueError` |
| LoraDownload.DownloadHubLora | train.py:598-617 | success exactly when the URL passes and `pget` succeeds, with the fixed `output/flux_train_replicate/lora.safetensors` destination; there is no existence check |
| LoraDownload.RejectedBeforeDownload | train.py:622-640 | for a refused URL both helpers give `ValueError` whatever the download would have done |
| LoraDownload.DestinationIsFixed | train.py:631-633 | every accepted URL whose download succeeds yields the same path, ending in `pretrained_lora.safetensors` |
| LoraDownload.SameUrlRule | train.py:598-628 | the two helpers accept exactly the same URLs |
| LoraDownload.GuardExamples | test_lora_fine_tuning.py:22-52 | the sample hub URL is accepted and `https://example.com/invalid.txt` refused; a URL continuing after `.safetensors`, or on a host that merely begins with `huggingface.co`, is accepted |
| LoraDownload.GuardRefusesOtherExtension | test_lora_fine_tuning.py:54-61 | a hub URL ending in `lora.bin` is refused, because `.safetensors` occurs nowhere in it |
| MemoryPlan.Max | train.py:297 | `max` of a non-empty list is an element and bounds every element |
| MemoryPlan.Decide | train.py:284-301 | the user's flag gives checkpointing without quantization; quantize holds exactly when the flag is off and memory is below 100 GiB; checkpointing holds exactly when the flag is on, memory is low, batch size exceeds 1 or some resolution exceeds 1024 |
| MemoryPlan.UserFlagNeedsNoMemoryQuery | train.py:284-288 | with the user's flag set the plan does not depend on GPU memory |
| MemoryPlan.MoreMemoryNeverAddsWork | train.py:284-301 | a GPU with more memory never gets quantization or checkpointing that a smaller one would not |
| TrainConfig.SetKwarg | train.py:383-394 | setting a `network_kwargs` key creates the mapping when absent, stores the value, and keeps every other key and value; nothing else in the network changes |
| TrainConfig.SetKwargCommutes | train.py:381-394 | setting the two keys in either order gives the same network |
| TrainConfig.Build | train.py:303-394 | linear equals alpha equals the rank; save cadence is the W&B interval with a key and `steps + 1` without; sample cadence is the W&B interval only with a key and prompts; `pretrained_path` is present exactly when a path was downloaded and `only_if_contains` exactly when layers matched, and no other key exists; checkpointing and quantize follow the plan |
| TrainConfig.UntrackedRunNeverSavesOrSamples | train.py:321-363 | without a W&B key no step from 1 to `steps` is a multiple of either cadence, and both exceed `steps` |
| TrainConfig.DropEmptyTriggerWord | train.py:426-427 | an empty trigger word removes the key and a non-empty one leaves the configuration unchanged; nothing else ever changes |
| TrainConfig.BuiltConfigIsReady | train.py:303-427 | every built configuration, after the trigger-word removal, has alpha equal to rank, one dataset, well-typed non-empty `network_kwargs`, and no empty trigger word |
| ZipExtract.KeptEntries | train.py:578-583 | the extracted entries are exactly the archive entries starting with neither `__MACOSX/` nor `._` |
| ZipExtract.KeptEntriesAppend | train.py:578-583 | filtering distributes over concatenation, so archive order is kept |
| ZipExtract.KeptEntriesIdempotent | train.py:579-581 | filtering the extracted entries again removes nothing |
| ZipExtract.Extracted | train.py:571-583 | a non-zip input fails; a zip yields exactly the kept entries |
| ZipExtract.ExtractZip | train.py:571-585 | the extraction loop agrees with the reference filter, raises `ValueError` for a non-zip input, and its counter equals the number of entries extracted |
| ZipExtract.PrefixOnlyAtTop | train.py:579-581 | `photos/._cat.jpg` is extracted; `__MACOSX/...` and top-level `._...` entries are not |
| HfReadme.SplitSecondIsSecondSegment | train.py:556-557 | `split("/")[1]` is the text after the first `/` up to the next `/` or the end |
| HfReadme.Title | train.py:556-558 | without a `/` the title is the id itself; with one, it is the second segment with dashes as spaces, title-cased, and holds neither `/` nor `-` |
| HfReadme.TitleOfOwnerAndName | train.py:556-558 | the title of `owner/name` depends on `name` alone |
| HfReadme.TriggerSection | train.py:560-562 | the section is empty exactly when the trigger word is falsy, and otherwise quotes the trigger word in backticks |
| HfReadme.InstancePrompt | train.py:563 | the instance prompt is empty exactly when the trigger word is falsy |
| HfReadme.TrainingMode | train.py:547 | the mode says fine-tuned exactly when a resume URL is truthy, and from scratch otherwise |
| HfReadme.TrainingDetails | train.py:546-564 | the block opens with the mode, step, learning-rate and rank lines in that order, in both modes; it ends with the source URL line when fine-tuning and with the rank line otherwise, and its length leaves room for nothing else |
| HfReadme.ReadmeVariables | train.py:554-565 | the trigger section and instance prompt are empty together, exactly when the trigger word is falsy; otherwise they are the backticked trigger section and `instance_prompt: <word>`; the title and details follow their rules |
| JobOutputs.ObserveSamples | train.py:83-91 | the new images are the `.jpg` files present and not seen before; the images seen become all `.jpg` files present |
| JobOutputs.NoSampleReportedTwice | train.py:86-91 | two consecutive sampling steps never report the same image |
| JobOutputs.GrowingDirectoryReportsEverything | train.py:86-91 | with a growing directory, two steps together report every image of the later directory except those already seen at the first step |
| JobOutputs.LatestWeights | train.py:93-99 | the final weights when present, otherwise the greatest `.safetensors` name in string order; `IndexError` exactly when no weights file exists |
| JobOutputs.LatestIsUnique | train.py:99 | the greatest weights file is unique, so the choice is determined |
| Text.LexLeReflexive | train.py:99 | Python's string order, which `sorted` uses, relates every string to itself |
| Text.LexLeTotal | train.py:99 | any two strings are comparable, so `sorted` has a last element |
| Text.LexLeTransitive | train.py:99 | the string order is transitive |
| Text.LexLeAntisymmetric | train.py:99 | two strings each at most the other are equal |
| JobOutputs.FinalizeJobDir | train.py:456-476 | `FileNotFoundError` exactly when the final weights are missing; otherwise `lora.safetensors` is the only weights file left, the samples are gone, the optimizer state stays exactly when present and kept, and every other file is untouched |
| Train.SamplePrompts | train.py:280-282 | there are prompts exactly when the prompt text is truthy; then there is one prompt per line of the text, and prompt k is line k stripped, with no newline and no whitespace at either end |
| Train.UnpaddedPromptsRoundTrip | train.py:280-282 | when no line of the prompt text has whitespace at either end, joining the prompts with newlines gives the text back, so no prompt is lost or altered |
| Train.ResumeFrom | train.py:261-267 | a falsy resume URL downloads nothing; a truthy one succeeds or fails with the download, yielding the fixed resume path |
| Train.LayersToOptimize | train.py:269-276 | no regex means no layer restriction; a regex matching nothing raises `ValueError`; otherwise the matched layers |
| Train.DownloadBaseWeights | train.py:649-661 | fails only when the weights are absent and the download fails |
| Train.Train | train.py:248-252 | a run ends with the downloaded LoRA exactly when a skip URL was given and nothing failed |
| Train.SkipUrlReturnsEarly | train.py:248-252 | with a skip URL the result depends only on that URL and its download: the archived hub LoRA, or a URL or download error |
| Train.ConflictErrorUnreachable | train.py:248-258 | no inputs make `train` raise the both-URLs conflict error |
| Train.MissingImagesReportedFirst | train.py:253-254 | without a skip URL, missing input images raise `ValueError` before anything else |
| Train.ResumeDownloadFailsBeforeLayerCheck | train.py:262-276 | a failing resume download is the error reported even when the layer regex also fails |
| Train.PreparedRun | train.py:261-427 | a prepared run's configuration is ready; it resumes exactly when the resume URL is truthy, restricts layers exactly when a regex is given, and keeps the trigger word exactly when it is non-empty; untracked runs never save or sample early; the extracted entries are the kept archive entries (the memory plan and the tracked cadences are in `Train.PreparedRunFollowsInputs`) |
| Train.PreparedRunFollowsInputs | train.py:284-363 | the configuration's checkpointing and quantize flags are the memory plan decided from the user's flag and the GPU memory; it saves at the W&B interval exactly when a W&B key is given and samples at the W&B interval exactly when a key and sample prompts are both given, otherwise at `steps + 1` |
| Train.LateFailures | train.py:423-424 | after the resume download and layer check succeed, a missing base model that cannot be downloaded fails the run with the download error, then a non-zip input fails it with `ValueError`; otherwise the run is prepared |
| Train.EmptyResumeUrlRecordedAsFineTuning | train.py:410-411 | with a W&B key and an empty resume URL, the tracking run records fine-tuning while the network has no pretrained path |

## Left out

- The CUDA memory query and `torch.cuda.empty_cache` are hardware access. Total GPU memory is a parameter.
- `pget`, `os.system("tar ...")`, `shutil` copies and removals, and `Path.rename`/`unlink` are process and filesystem I/O. A download is a `Fetch`, a directory is a set of names, and the tar archives are not modelled.
- `clean_up` (train.py:588-595) and the copying and removal of caption files (train.py:478-483, 502-503) are filesystem and network side effects.
- The Hugging Face upload, its error swallowing (train.py:501-526), the W&B client calls and `logout_wandb` are network services.
- `Captioner`, `SDTrainer`, `CustomJob`, `BaseJob`, `get_config` and `patch_submodules` are library code that is not part of this model. So are the loss logging in `hook_train_loop` and the job run. `layer_match` is one of these too: the layers it matches are a parameter.
- The autocaption parameters only reach the captioner and the W&B config, so they are not inputs here. The tracking record carries only the fields the model reasons about.
- Environment-variable changes, the `sys.path` import fallback and all printing, including the MB size report, have no behaviour worth stating.
- The learning rate and caption dropout rate are floating point. They are carried as `real` values. The model card takes the learning rate as the text Python prints for it.
- Python `int()` parsing of the resolution list is left out. Resolutions arrive as a non-empty list of integers.
- `string.Template` substitution and the template file are left out. The model stops at the substituted variables.
- Text.TitleCase: only ASCII letters count as cased. Python's `title()` also treats other Unicode letters as cased.
- Text.Strip: only ASCII whitespace is removed. Python's `strip()` also removes Unicode spaces such as U+00A0.
- JobOutputs.ObserveSamples: the new images are a set. The sorted order in which they are logged is not modelled.
- JobOutputs.LatestWeights: it returns a file name rather than a full path. All candidates share one directory, so path order and name order agree.

=== FILE: hf_readme.dfy ===
/**
 `handle_hf_readme`: the variables substituted into the model card that is
 uploaded with the trained LoRA. The template file and its substitution are
 not modelled; the variables are.
 */
module HfReadme {
  import opened Outcomes
  import opened Text

  const FineTunedMode := "Fine-tuned from pre-trained LoRA"
  const ScratchMode := "Trained from scratch"
  const DetailsHeader := "\n## Training details\n\n"
  const TriggerIntro := "\n## Trigger words\n\nYou should use "

  datatype Variables = Variables(
    repoId: string,
    title: string,
    triggerWord: Option<string>,
    triggerSection: string,
    instancePrompt: string,
    trainingDetails: string)

  /**
   `name` is the second `/`-separated segment of `s`: it starts right after
   the first `/` and runs up to the next `/` or the end.
   */
  predicate IsSecondSegment(s: string, name: string) {
    && '/' in s
    && var i := FirstIndex(s, '/');
    && StartsWith(s[i + 1..], name)
    && '/' !in name
    && (i + 1 + |name| == |s| || s[i + 1 + |name|] == '/')
  }

  /** The element `split("/")[1]` picks is the second segment. */
  lemma SplitSecondIsSecondSegment(s: string)
    requires '/' in s
    ensures IsSecondSegment(s, Split(s, '/')[1])
  {
  }

  /** `hf_repo_id.split("/")[1].replace("-", " ").title()` when the id has a `/`, the id itself otherwise. */
  function Title(repoId: string): (t: string)
    ensures '/' !in repoId ==> t == repoId
    ensures '/' in repoId ==>
      exists name :: IsSecondSegment(repoId, name) && t == TitleCase(ReplaceChar(name, '-', ' '))
    ensures '/' in repoId ==> '/' !in t && '-' !in t
  {
    var parts := Split(repoId, '/');
    if |parts| > 1 then
      var name := parts[1];
      SplitSecondIsSecondSegment(repoId);
      var spaced := ReplaceChar(name, '-', ' ');
      var t := TitleCase(spaced);
      assert forall k :: 0 <= k < |t| ==> t[k] != '/' && t[k] != '-' by {
        forall k | 0 <= k < |t|
          ensures t[k] != '/' && t[k] != '-'
        {
          assert name[k] != '/';
          assert !IsLetter(spaced[k]) ==> t[k] == spaced[k];
        }
      }
      t
    else
      repoId
  }

  /** For an id `owner/name` the title is built from `name` alone. */
  lemma TitleOfOwnerAndName(owner: string, name: string)
    requires '/' !in owner && '/' !in name
    ensures Title(owner + "/" + name) == TitleCase(ReplaceChar(name, '-', ' '))
  {
  }

  /** The trigger-word section: present exactly when the trigger word is truthy, and quoting it. */
  function TriggerSection(triggerWord: Option<string>): (r: string)
    ensures r == "" <==> !IsTruthy(triggerWord)
    ensures IsTruthy(triggerWord) ==> OccursAt(r, "`" + triggerWord.value + "`", |TriggerIntro|)
  {
    if IsTruthy(triggerWord) then
      var quoted := "`" + triggerWord.value + "`";
      var r := TriggerIntro + quoted + " to trigger the image generation.\n";
      assert r[|TriggerIntro|..|TriggerIntro| + |quoted|] == quoted;
      r
    else ""
  }

  /** The `instance_prompt` line: present exactly when the trigger word is truthy. */
  function InstancePrompt(triggerWord: Option<string>): (r: string)
    ensures r == "" <==> !IsTruthy(triggerWord)
    ensures IsTruthy(triggerWord) ==> r == "instance_prompt: " + triggerWord.value
  {
    if IsTruthy(triggerWord) then "instance_prompt: " + triggerWord.value else ""
  }

  function TrainingMode(pretrainedUrl: Option<string>): (m: string)
    ensures m == FineTunedMode <==> IsTruthy(pretrainedUrl)
    ensures m == ScratchMode <==> !IsTruthy(pretrainedUrl)
  {
    if IsTruthy(pretrainedUrl) then FineTunedMode else ScratchMode
  }

  /**
   A block of lines ending in `tag + value + nl`, optionally followed by
   one more line: the block is a prefix of the whole, the last line of the
   block ends it, and the extra line ends the whole.
   */
  lemma BlockShape(before: string, tag: string, value: string, nl: string, extra: string)
    ensures StartsWith(before + tag + value + nl + extra, before + tag + value + nl)
    ensures EndsWith(before + tag + value + nl, tag + value + nl)
    ensures EndsWith(before + tag + value + nl + extra, nl + extra)
  {
    PrefixOfConcat(before + tag + value + nl, extra);
    SuffixOfConcat(before, tag, tag);
    EndsWithAppend(before + tag, tag, value);
    EndsWithAppend(before + tag + value, tag + value, nl);
    SuffixOfConcat(before + tag + value, nl, nl);
    EndsWithAppend(before + tag + value + nl, nl, extra);
  }

  /**
   The training-details block: the mode, step, learning-rate and rank lines
   in that order, followed by the source URL line when fine-tuning and by
   nothing else (the length clause rules out anything in between). The
   learning rate is given as the text Python prints for it.
   */
  function TrainingDetails(pretrainedUrl: Option<string>, steps: nat, learningRateText: string, loraRank: nat): (r: string)
    ensures StartsWith(r, DetailsHeader + "- Training mode: " + TrainingMode(pretrainedUrl) + "\n- Steps: " + Decimal(steps)
      + "\n- Learning rate: " + learningRateText + "\n- LoRA rank: " + Decimal(loraRank) + "\n")
    ensures IsTruthy(pretrainedUrl) ==> EndsWith(r, "\n" + ("- Pre-trained LoRA source: " + pretrainedUrl.value + "\n"))
    ensures !IsTruthy(pretrainedUrl) ==> EndsWith(r, "\n- LoRA rank: " + Decimal(loraRank) + "\n")
    ensures |r| == |DetailsHeader + "- Training mode: " + TrainingMode(pretrainedUrl) + "\n- Steps: " + Decimal(steps)
      + "\n- Learning rate: " + learningRateText + "\n- LoRA rank: " + Decimal(loraRank) + "\n"|
      + (if IsTruthy(pretrainedUrl) then |"- Pre-trained LoRA source: " + pretrainedUrl.value + "\n"| else 0)
  {
    var before := DetailsHeader + "- Training mode: " + TrainingMode(pretrainedUrl) + "\n- Steps: " + Decimal(steps)
      + "\n- Learning rate: " + learningRateText;
    var source := if IsTruthy(pretrainedUrl) then "- Pre-trained LoRA source: " + pretrainedUrl.value + "\n" else "";
    BlockShape(before, "\n- LoRA rank: ", Decimal(loraRank), "\n", source);
    before + "\n- LoRA rank: " + Decimal(loraRank) + "\n" + source
  }

  /** The template variables `handle_hf_readme` substitutes. */
  function ReadmeVariables(
    repoId: string, triggerWord: Option<string>, steps: nat, learningRateText: string,
    loraRank: nat, pretrainedUrl: Option<string>): (v: Variables)
    ensures v.repoId == repoId && v.triggerWord == triggerWord
    ensures '/' !in repoId ==> v.title == repoId
    ensures (v.triggerSection == "") == (v.instancePrompt == "") == !IsTruthy(triggerWord)
    ensures v.title == Title(repoId)
    ensures v.triggerSection == TriggerSection(triggerWord) && v.instancePrompt == InstancePrompt(triggerWord)
    ensures v.trainingDetails == TrainingDetails(pretrainedUrl, steps, learningRateText, loraRank)
  {
    Variables(
      repoId, Title(repoId), triggerWord, TriggerSection(triggerWord), InstancePrompt(triggerWord),
      TrainingDetails(pretrainedUrl, steps, learningRateText, loraRank))
  }
}

=== FILE: job_outputs.dfy ===
/**
 What happens to the job directory around and after the training run: which
 sample images are new at each sampling step, which weights file is saved to
 experiment tracking after a save, and how the directory is pruned before it
 is archived. Directories are modelled as the set of names they contain.
 */
module JobOutputs {
  import opened Outcomes
  import opened Text
  import Paths

  /** The name the trainer gives the final weights. */
  const FinalWeights := Paths.JobName + Paths.WeightsExtension
  /** The name the final weights are published under. */
  const LoraWeights := "lora.safetensors"
  const SamplesDir := "samples"
  const OptimizerState := "optimizer.pt"

  /** A name `glob("*.safetensors")` matches. */
  predicate IsWeightsFile(name: string) {
    EndsWith(name, Paths.WeightsExtension)
  }

  /** A name `glob("*.jpg")` matches. */
  predicate IsSampleImage(name: string) {
    EndsWith(name, ".jpg")
  }

  /** After one sampling step: the images reported as new, and the images now remembered as seen. */
  datatype SampleStep = SampleStep(newImages: set<string>, seen: set<string>)

  /** `CustomSDTrainer.sample`: the images in the sample directory not seen before are the new ones. */
  function ObserveSamples(seen: set<string>, sampleDir: set<string>): (s: SampleStep)
    ensures forall n :: n in s.newImages <==> n in sampleDir && IsSampleImage(n) && n !in seen
    ensures forall n :: n in s.seen <==> n in sampleDir && IsSampleImage(n)
    ensures s.newImages !! seen && s.newImages <= s.seen
  {
    var images := set n | n in sampleDir && IsSampleImage(n);
    SampleStep(images - seen, images)
  }

  /** Across two consecutive sampling steps no image is reported twice. */
  lemma NoSampleReportedTwice(seen: set<string>, dir1: set<string>, dir2: set<string>)
    ensures ObserveSamples(seen, dir1).newImages !! ObserveSamples(ObserveSamples(seen, dir1).seen, dir2).newImages
  {
  }

  /**
   When the directory only grows, two steps together report every image of
   the later directory except those already seen at the first step.
   */
  lemma GrowingDirectoryReportsEverything(seen: set<string>, dir1: set<string>, dir2: set<string>)
    requires dir1 <= dir2
    ensures var first := ObserveSamples(seen, dir1);
      first.newImages + ObserveSamples(first.seen, dir2).newImages
      == ObserveSamples(seen, dir2).seen - (seen * first.seen)
  {
  }

  /**
   `CustomSDTrainer.post_save_hook`: the final weights when they exist,
   otherwise the last intermediate weights file in sorted order; with no
   weights file at all, `sorted(...)[-1]` raises `IndexError`.
   */
  method LatestWeights(files: set<string>) returns (r: Result<string>)
    ensures r.Ok? <==> exists n :: n in files && IsWeightsFile(n)
    ensures FinalWeights in files ==> r == Ok(FinalWeights)
    ensures r.Ok? ==> r.value in files && IsWeightsFile(r.value)
    ensures r.Ok? && FinalWeights !in files ==>
      forall n :: n in files && IsWeightsFile(n) ==> LexLe(n, r.value)
    ensures r.Err? ==> r.error == NoSavedWeights && KindOf(r.error) == IndexError
  {
    if FinalWeights in files {
      assert IsWeightsFile(FinalWeights) by {
        assert FinalWeights[|FinalWeights| - |Paths.WeightsExtension|..] == Paths.WeightsExtension;
      }
      return Ok(FinalWeights);
    }
    var candidates := set n | n in files && IsWeightsFile(n);
    if candidates == {} {
      assert forall n :: n in files && IsWeightsFile(n) ==> n in candidates;
      return Err(NoSavedWeights);
    }
    var best :| best in candidates;
    LexLeReflexive(best);
    var rest := candidates - {best};
    while rest != {}
      invariant rest <= candidates && best in candidates
      invariant forall n :: n in candidates - rest ==> LexLe(n, best)
      decreases rest
    {
      var n :| n in rest;
      if !LexLe(n, best) {
        LexLeTotal(n, best);
        LexLeReflexive(n);
        forall m | m in candidates - rest
          ensures LexLe(m, n)
        {
          LexLeTransitive(m, best, n);
        }
        best := n;
      }
      rest := rest - {n};
    }
    return Ok(best);
  }

  /** The file `post_save_hook` picks is determined: two greatest weights files are the same file. */
  lemma LatestIsUnique(files: set<string>, a: string, b: string)
    requires a in files && IsWeightsFile(a) && b in files && IsWeightsFile(b)
    requires forall n :: n in files && IsWeightsFile(n) ==> LexLe(n, a)
    requires forall n :: n in files && IsWeightsFile(n) ==> LexLe(n, b)
    ensures a == b
  {
    LexLeAntisymmetric(a, b);
  }

  /**
   The clean-up after training: rename the final weights to
   `lora.safetensors` (`FileNotFoundError` when they are missing), remove the
   samples, delete every other weights file, and delete the optimizer state
   unless it is to be kept for resuming.
   */
  function FinalizeJobDir(files: set<string>, keepOptimizer: bool): (r: Result<set<string>>)
    ensures r.Ok? <==> FinalWeights in files
    ensures r.Err? ==> r.error == TrainedLoraMissing(Paths.Child(Paths.JobDir, FinalWeights))
    ensures r.Err? ==> KindOf(r.error) == FileNotFoundError
    ensures r.Ok? ==> LoraWeights in r.value
    ensures r.Ok? ==> forall n :: n in r.value && IsWeightsFile(n) ==> n == LoraWeights
    ensures r.Ok? ==> SamplesDir !in r.value
    ensures r.Ok? ==> (OptimizerState in r.value <==> OptimizerState in files && keepOptimizer)
    ensures r.Ok? ==> forall n :: !IsWeightsFile(n) && n != SamplesDir && n != OptimizerState ==>
      (n in r.value <==> n in files)
  {
    if FinalWeights !in files then Err(TrainedLoraMissing(Paths.Child(Paths.JobDir, FinalWeights)))
    else
      var renamed := files - {FinalWeights} + {LoraWeights};
      var withoutSamples := renamed - {SamplesDir};
      var pruned := set n | n in withoutSamples && (!IsWeightsFile(n) || n == LoraWeights);
      var result := if !keepOptimizer then pruned - {OptimizerState} else pruned;
      assert LoraWeights in pruned;
      Ok(result)
  }
}

=== FILE: lora_download.dfy ===
/**
 The two LoRA download helpers: `download_huggingface_lora`, which fetches a
 LoRA used instead of training, and `download_pretrained_lora_for_training`,
 which fetches a LoRA to resume training from. Both first check the URL with
 the same guard. Running `pget` is abstracted as a `Fetch` (its exit status
 and the set of paths that exist afterwards).
 */
module LoraDownload {
  import opened Outcomes
  import opened Text
  import Paths

  const HubPrefix := "https://huggingface.co"

  /**
   The URL rule, read declaratively: the URL begins with the hub prefix and
   the extension occurs somewhere in it (not necessarily at the end).
   */
  ghost predicate Accepted(url: string) {
    StartsWith(url, HubPrefix) && exists i :: OccursAt(url, Paths.WeightsExtension, i)
  }

  /** The guard shared by both helpers: a prefix test and a substring test. */
  predicate IsHubLoraUrl(url: string) {
    StartsWith(url, HubPrefix) && Contains(url, Paths.WeightsExtension)
  }

  /** Raises `ValueError` for a URL the guard refuses, and lets every other URL through. */
  function CheckLoraUrl(url: string): (r: Result<string>)
    ensures r.Ok? <==> Accepted(url)
    ensures r.Ok? ==> r.value == url
    ensures r.Err? ==> r.error == InvalidLoraUrl(url) && KindOf(r.error) == ValueError
  {
    if IsHubLoraUrl(url) then Ok(url) else Err(InvalidLoraUrl(url))
  }

  /** What one `pget -f <url> <dest>` run did: whether it exited with status 0, and the paths that exist afterwards. */
  datatype Fetch = Fetch(exitedOk: bool, filesAfter: set<string>)

  /**
   `download_pretrained_lora_for_training`: check the URL, download it to the
   fixed resume location, and fail if the file is not there afterwards.
   */
  function DownloadPretrainedLora(url: string, fetch: Fetch): (r: Result<string>)
    ensures r.Ok? <==> Accepted(url) && fetch.exitedOk && Paths.PretrainedLoraPath in fetch.filesAfter
    ensures r.Ok? ==> r.value == Paths.PretrainedLoraPath && r.value in fetch.filesAfter
    ensures !Accepted(url) ==> r == Err(InvalidLoraUrl(url))
    ensures Accepted(url) && !fetch.exitedOk ==> KindOf(r.error) == CalledProcessError
    ensures Accepted(url) && fetch.exitedOk && Paths.PretrainedLoraPath !in fetch.filesAfter ==>
      r == Err(DownloadedFileMissing(Paths.PretrainedLoraPath)) && KindOf(r.error) == RuntimeError
  {
    var _ :- CheckLoraUrl(url);
    if !fetch.exitedOk then Err(DownloadToolFailed(url))
    else if Paths.PretrainedLoraPath !in fetch.filesAfter then Err(DownloadedFileMissing(Paths.PretrainedLoraPath))
    else Ok(Paths.PretrainedLoraPath)
  }

  /**
   `download_huggingface_lora`: check the URL and download it to the fixed
   location that is then archived. There is no existence check here: only a
   failing `pget` stops it.
   */
  function DownloadHubLora(url: string, fetchOk: bool): (r: Result<string>)
    ensures r.Ok? <==> Accepted(url) && fetchOk
    ensures r.Ok? ==> r.value == Paths.HubLoraPath
    ensures !Accepted(url) ==> r == Err(InvalidLoraUrl(url))
    ensures Accepted(url) && !fetchOk ==> KindOf(r.error) == CalledProcessError
  {
    var _ :- CheckLoraUrl(url);
    if fetchOk then Ok(Paths.HubLoraPath) else Err(DownloadToolFailed(url))
  }

  /** A refused URL fails before anything is downloaded: the outcome of the fetch is never consulted. */
  lemma RejectedBeforeDownload(url: string, f1: Fetch, f2: Fetch, ok1: bool, ok2: bool)
    requires !IsHubLoraUrl(url)
    ensures DownloadPretrainedLora(url, f1) == DownloadPretrainedLora(url, f2) == Err(InvalidLoraUrl(url))
    ensures DownloadHubLora(url, ok1) == DownloadHubLora(url, ok2) == Err(InvalidLoraUrl(url))
  {
  }

  /** The resume destination does not depend on the URL: every accepted URL that downloads lands in the same place. */
  lemma DestinationIsFixed(u1: string, u2: string, fetch: Fetch)
    requires DownloadPretrainedLora(u1, fetch).Ok?
    requires Accepted(u2)
    ensures DownloadPretrainedLora(u2, fetch) == DownloadPretrainedLora(u1, fetch)
    ensures EndsWith(DownloadPretrainedLora(u2, fetch).value, "pretrained_lora.safetensors")
  {
  }

  /** Both helpers accept exactly the same URLs. */
  lemma SameUrlRule(url: string, fetch: Fetch)
    requires fetch.exitedOk && Paths.PretrainedLoraPath in fetch.filesAfter
    ensures DownloadPretrainedLora(url, fetch).Ok? <==> DownloadHubLora(url, true).Ok?
  {
  }

  /**
   The guard on concrete URLs: the sample download URL is accepted, a URL on
   another host is refused, and since the extension test is a substring test
   a URL that continues after `.safetensors`, or whose host merely begins
   with `huggingface.co`, is accepted too.
   */
  lemma {:induction false} GuardExamples()
    ensures IsHubLoraUrl(HubPrefix + "/test/model/resolve/main/lora" + Paths.WeightsExtension)
    ensures !IsHubLoraUrl("https://example.com/invalid.txt")
    ensures IsHubLoraUrl(HubPrefix + "/test/model/resolve/main/lora" + Paths.WeightsExtension + ".bin")
    ensures IsHubLoraUrl(HubPrefix + ".example.org/lora" + Paths.WeightsExtension)
  {
    var good := HubPrefix + "/test/model/resolve/main/lora" + Paths.WeightsExtension;
    assert OccursAt(good, Paths.WeightsExtension, |good| - |Paths.WeightsExtension|);
    var bad := "https://example.com/invalid.txt";
    assert bad[8] != HubPrefix[8];
    var longer := good + ".bin";
    assert longer[..|good|] == good;
    assert OccursAt(longer, Paths.WeightsExtension, |good| - |Paths.WeightsExtension|);
    var lookalike := HubPrefix + ".example.org/lora" + Paths.WeightsExtension;
    assert OccursAt(lookalike, Paths.WeightsExtension, |lookalike| - |Paths.WeightsExtension|);
  }

  /** The `.bin` sample URL, cut at its two dots. */
  lemma BinUrlDots()
    ensures "https://huggingface.co/test/model/resolve/main/lora.bin"
      == "https://huggingface" + ['.'] + "co/test/model/resolve/main/lora" + ['.'] + "bin"
  {
  }

  /**
   A hub URL whose file is not a `.safetensors` file is refused: the only
   two dots in it are the one in the host name, followed by `c`, and the one
   four characters from the end.
   */
  lemma {:induction false} GuardRefusesOtherExtension()
    ensures !IsHubLoraUrl("https://huggingface.co/test/model/resolve/main/lora.bin")
  {
    BinUrlDots();
    AbsentBetweenMarks("https://huggingface", "co/test/model/resolve/main/lora", "bin", '.', Paths.WeightsExtension);
  }
}

=== FILE: memory_plan.dfy ===
/**
 The memory-saving decision `train` makes before assembling the training
 configuration: whether to turn gradient checkpointing on, and whether to
 quantize the base model. The GPU's total memory, which the source reads
 from CUDA, is a parameter.
 */
module MemoryPlan {

  /** 100 GiB: below this much GPU memory the base model is quantized. */
  const LowMemoryThreshold: int := 1024 * 1024 * 1024 * 100

  /** Training resolutions above this turn gradient checkpointing on. */
  const LargeResolution: int := 1024

  datatype Plan = Plan(gradientCheckpointing: bool, quantize: bool)

  /** Python's `max(xs)` on a non-empty list. */
  function Max(xs: seq<int>): (m: int)
    requires |xs| > 0
    ensures m in xs
    ensures forall k :: 0 <= k < |xs| ==> xs[k] <= m
    decreases |xs|
  {
    if |xs| == 1 then xs[0]
    else
      var rest := Max(xs[1..]);
      assert forall k :: 1 <= k < |xs| ==> xs[k] == xs[1..][k - 1];
      if xs[0] >= rest then xs[0] else rest
  }

  /**
   The user's flag is kept when set; otherwise low memory turns on both
   checkpointing and quantization, and a batch size above one or a
   resolution above 1024 turns on checkpointing alone.
   */
  function Decide(userCheckpointing: bool, totalMemory: int, batchSize: int, resolutions: seq<int>): (p: Plan)
    requires |resolutions| > 0
    ensures userCheckpointing ==> p == Plan(true, false)
    ensures p.quantize <==> !userCheckpointing && totalMemory < LowMemoryThreshold
    ensures p.gradientCheckpointing <==>
      || userCheckpointing
      || totalMemory < LowMemoryThreshold
      || batchSize > 1
      || (exists k :: 0 <= k < |resolutions| && resolutions[k] > LargeResolution)
    ensures p.quantize ==> p.gradientCheckpointing
  {
    if userCheckpointing then Plan(true, false)
    else if totalMemory < LowMemoryThreshold then Plan(true, true)
    else if batchSize > 1 then Plan(true, false)
    else if Max(resolutions) > LargeResolution then Plan(true, false)
    else Plan(false, false)
  }

  /** When the user asks for checkpointing the GPU's memory plays no part in the plan. */
  lemma UserFlagNeedsNoMemoryQuery(m1: int, m2: int, batchSize: int, resolutions: seq<int>)
    requires |resolutions| > 0
    ensures Decide(true, m1, batchSize, resolutions) == Decide(true, m2, batchSize, resolutions)
  {
  }

  /**
   Adding memory never adds work: on a GPU with at least as much memory the
   plan quantizes no more and checkpoints no more.
   */
  lemma MoreMemoryNeverAddsWork(user: bool, m1: int, m2: int, batchSize: int, resolutions: seq<int>)
    requires |resolutions| > 0
    requires m1 <= m2
    ensures Decide(user, m2, batchSize, resolutions).quantize ==> Decide(user, m1, batchSize, resolutions).quantize
    ensures Decide(user, m2, batchSize, resolutions).gradientCheckpointing ==> Decide(user, m1, batchSize, resolutions).gradientCheckpointing
  {
  }
}

=== FILE: outcomes.dfy ===
/**
 The failure vocabulary of the training wrapper: the optional values its
 parameters carry, the errors `train` and its helpers raise, and the Python
 exception class each error is raised as.
 */
module Outcomes {

  datatype Option<+T> = None | Some(value: T)

  /** Python truthiness of an optional string: `None` and `""` are falsy. */
  predicate IsTruthy(s: Option<string>) {
    s.Some? && |s.value| > 0
  }

  /** The Python exception classes the modelled code raises. */
  datatype Exception =
    | ValueError
    | RuntimeError
    | CalledProcessError
    | FileNotFoundError
    | IndexError

  /** Every way the modelled code can stop with an exception. */
  datatype Error =
    | InvalidLoraUrl(url: string)
    | MissingInputImages
    | ConflictingLoraUrls
    | NoLayersMatched(regex: string)
    | NotAZipFile
    | DownloadToolFailed(source: string)
    | DownloadedFileMissing(path: string)
    | TrainedLoraMissing(path: string)
    | NoSavedWeights

  /** The exception class each error is raised as. */
  function KindOf(e: Error): Exception {
    match e
    case InvalidLoraUrl(_) => ValueError
    case MissingInputImages => ValueError
    case ConflictingLoraUrls => ValueError
    case NoLayersMatched(_) => ValueError
    case NotAZipFile => ValueError
    case DownloadToolFailed(_) => CalledProcessError
    case DownloadedFileMissing(_) => RuntimeError
    case TrainedLoraMissing(_) => FileNotFoundError
    case NoSavedWeights => IndexError
  }

  /** Either the value a step produced or the error it raised; usable with `:-`. */
  datatype Result<+T> = Ok(value: T) | Err(error: Error) {

    predicate IsFailure() {
      Err?
    }

    function PropagateFailure<U>(): Result<U>
      requires Err?
    {
      Err(error)
    }

    function Extract(): T
      requires Ok?
    {
      value
    }
  }
}

=== FILE: paths.dfy ===
/**
 The fixed locations the training wrapper reads and writes, as the relative
 path strings `str(Path(...))` produces.
 */
module Paths {

  /** `str(Path(dir) / name)`. */
  function Child(dir: string, name: string): string {
    dir + "/" + name
  }

  const JobName := "flux_train_replicate"

  /** The file extension of LoRA weights. */
  const WeightsExtension := ".safetensors"
  const InputDir := "input_images"
  const OutputDir := "output"
  const JobDir := Child(OutputDir, JobName)
  /** `str(Path("./FLUX.1-dev"))`: pathlib drops the leading `./`. */
  const WeightsPath := "FLUX.1-dev"
  const BaseWeightsUrl := "https://weights.replicate.delivery/default/black-forest-labs/FLUX.1-dev/files.tar"

  /** Where a LoRA to resume training from is downloaded. */
  const PretrainedLoraDir := Child(InputDir, "pretrained_lora")
  const PretrainedLoraPath := Child(PretrainedLoraDir, "pretrained_lora.safetensors")

  /** Where a LoRA used instead of training is downloaded. */
  const HubLoraPath := Child(Child(OutputDir, "flux_train_replicate"), "lora.safetensors")

  /** The archive `train` returns in every successful run. */
  const TrainedModelTar := "/tmp/trained_model.tar"
}

=== FILE: text.dfy ===
/**
 The string operations the training wrapper relies on, written as the Python
 built-ins they stand for: `startswith`/`endswith`, the `in` substring test,
 `split` on one character, `replace` of one character, `title()` over ASCII
 letters, `strip()` over ASCII whitespace, and `str()` of a natural number.
 */
module Text {

  predicate StartsWith(s: string, prefix: string) {
    |prefix| <= |s| && s[..|prefix|] == prefix
  }

  predicate EndsWith(s: string, suffix: string) {
    |suffix| <= |s| && s[|s| - |suffix|..] == suffix
  }

  lemma PrefixOfConcat(a: string, b: string)
    ensures StartsWith(a + b, a)
  {
  }

  lemma SuffixOfConcat(a: string, b: string, t: string)
    requires EndsWith(b, t)
    ensures EndsWith(a + b, t)
  {
  }

  lemma EndsWithAppend(a: string, t: string, b: string)
    requires EndsWith(a, t)
    ensures EndsWith(a + b, t + b)
  {
    assert (a + b)[|a + b| - |t + b|..] == a[|a| - |t|..] + b;
  }

  /** `t` occurs in `s` starting at index `i`. */
  predicate OccursAt(s: string, t: string, i: int) {
    0 <= i && i + |t| <= |s| && s[i..i + |t|] == t
  }

  /** Python's `t in s` on strings, computed by a left-to-right scan. */
  function Contains(s: string, t: string): (b: bool)
    ensures b <==> exists i :: OccursAt(s, t, i)
    decreases |s|
  {
    if StartsWith(s, t) then
      assert OccursAt(s, t, 0);
      true
    else if |s| == 0 then
      false
    else
      var rest := Contains(s[1..], t);
      assert forall i :: OccursAt(s[1..], t, i) ==> OccursAt(s, t, i + 1);
      assert forall i :: OccursAt(s, t, i) && i > 0 ==> OccursAt(s[1..], t, i - 1);
      rest
  }

  /**
   `t` starts with a mark character `c` that occurs in `s` only twice: after
   the first mark comes something other than `t`'s second character, and
   after the second too little is left for `t`. Then `t` does not occur in `s`.
   */
  lemma AbsentBetweenMarks(p1: string, p2: string, p3: string, c: char, t: string)
    requires |t| > |p3| + 1 && t[0] == c
    requires c !in p1 && c !in p2 && c !in p3
    requires |p2| > 0 && p2[0] != t[1]
    ensures !Contains(p1 + [c] + p2 + [c] + p3, t)
  {
    var s := p1 + [c] + p2 + [c] + p3;
    assert forall j :: 0 <= j < |p1| ==> s[j] == p1[j];
    assert s[|p1|] == c && s[|p1| + 1..|p1| + 1 + |p2|] == p2;
    forall i | 0 <= i && i + |t| <= |s|
      ensures !OccursAt(s, t, i)
    {
      if i < |p1| {
        assert s[i..i + |t|][0] == p1[i];
      } else if i == |p1| {
        assert s[i..i + |t|][1] == p2[0];
      } else if i <= |p1| + |p2| {
        assert s[i..i + |t|][0] == p2[i - |p1| - 1];
      }
    }
  }

  /** Position of the first `c` in `s`. */
  function FirstIndex(s: string, c: char): (i: nat)
    requires c in s
    ensures i < |s| && s[i] == c && c !in s[..i]
  {
    if s[0] == c then 0
    else
      assert c in s[1..];
      var j := FirstIndex(s[1..], c);
      assert s[..j + 1] == [s[0]] + s[1..][..j];
      j + 1
  }

  /** The parts separated by `sep`, glued back together. */
  function Join(parts: seq<string>, sep: char): string
    requires |parts| >= 1
  {
    if |parts| == 1 then parts[0] else parts[0] + [sep] + Join(parts[1..], sep)
  }

  /** Python's `s.split(sep)` for a one-character separator. */
  function Split(s: string, sep: char): (parts: seq<string>)
    ensures |parts| >= 1
    ensures forall k :: 0 <= k < |parts| ==> sep !in parts[k]
    ensures Join(parts, sep) == s
    ensures |parts| > 1 <==> sep in s
    decreases |s|
  {
    if sep !in s then [s]
    else
      var i := FirstIndex(s, sep);
      var rest := Split(s[i + 1..], sep);
      assert ([s[..i]] + rest)[1..] == rest;
      assert s == s[..i] + [sep] + s[i + 1..];
      [s[..i]] + rest
  }

  /** Splitting a joined list gives the list back when no part holds the separator. */
  lemma {:induction false} SplitJoin(parts: seq<string>, sep: char)
    requires |parts| >= 1
    requires forall k :: 0 <= k < |parts| ==> sep !in parts[k]
    ensures Split(Join(parts, sep), sep) == parts
    decreases |parts|
  {
    if |parts| > 1 {
      var p, tail := parts[0], Join(parts[1..], sep);
      var s := p + [sep] + tail;
      FirstIndexAfter(p, sep, tail);
      assert s[..|p|] == p && s[|p| + 1..] == tail;
      assert Split(s, sep) == [p] + Split(tail, sep);
      SplitJoin(parts[1..], sep);
      assert parts == [p] + parts[1..];
    }
  }

  /** The first separator of `p + [sep] + tail`, when `p` holds none, is the one right after `p`. */
  lemma FirstIndexAfter(p: string, sep: char, tail: string)
    requires sep !in p
    ensures sep in p + [sep] + tail && FirstIndex(p + [sep] + tail, sep) == |p|
  {
    var s := p + [sep] + tail;
    assert s[|p|] == sep && s[..|p|] == p;
    var i := FirstIndex(s, sep);
    assert forall j :: 0 <= j < i ==> s[..i][j] == s[j];
  }

  /** Python's `s.replace(from, to)` for single characters. */
  function ReplaceChar(s: string, from: char, to: char): (r: string)
    ensures |r| == |s|
    ensures forall i :: 0 <= i < |s| && s[i] != from ==> r[i] == s[i]
    ensures forall i :: 0 <= i < |s| && s[i] == from ==> r[i] == to
  {
    seq(|s|, i requires 0 <= i < |s| => if s[i] == from then to else s[i])
  }

  predicate IsUpper(c: char) { 'A' <= c <= 'Z' }

  predicate IsLower(c: char) { 'a' <= c <= 'z' }

  /** The characters `title()` treats as cased, restricted to ASCII. */
  predicate IsLetter(c: char) { IsUpper(c) || IsLower(c) }

  function ToUpper(c: char): char {
    if IsLower(c) then (c as int - 32) as char else c
  }

  function ToLower(c: char): char {
    if IsUpper(c) then (c as int + 32) as char else c
  }

  /** The letter at `i` begins a word: it is first, or follows a non-letter. */
  predicate StartsWord(s: string, i: int)
    requires 0 <= i < |s|
  {
    i == 0 || !IsLetter(s[i - 1])
  }

  /**
   The scan `str.title()` performs: `afterLetter` records whether the
   character before `s` was cased; a cased character is upper-cased after an
   uncased one and lower-cased after a cased one.
   */
  function TitleScan(s: string, afterLetter: bool): (r: string)
    ensures |r| == |s|
    ensures forall i :: 0 <= i < |s| && !IsLetter(s[i]) ==> r[i] == s[i]
    ensures forall i :: 0 <= i < |s| && IsLetter(s[i]) ==>
      r[i] == (if (if i == 0 then afterLetter else IsLetter(s[i - 1])) then ToLower(s[i]) else ToUpper(s[i]))
    decreases |s|
  {
    if |s| == 0 then []
    else
      var c := s[0];
      var out := if !IsLetter(c) then c else if afterLetter then ToLower(c) else ToUpper(c);
      var rest := TitleScan(s[1..], IsLetter(c));
      assert forall i :: 1 <= i < |s| ==> ([out] + rest)[i] == rest[i - 1] && s[1..][i - 1] == s[i];
      [out] + rest
  }

  /** Python's `s.title()` over ASCII letters: every word capitalised, the rest lower case. */
  function TitleCase(s: string): (r: string)
    ensures |r| == |s|
    ensures forall i :: 0 <= i < |s| && !IsLetter(s[i]) ==> r[i] == s[i]
    ensures forall i :: 0 <= i < |s| && IsLetter(s[i]) && StartsWord(s, i) ==> r[i] == ToUpper(s[i])
    ensures forall i :: 0 <= i < |s| && IsLetter(s[i]) && !StartsWord(s, i) ==> r[i] == ToLower(s[i])
  {
    TitleScan(s, false)
  }

  /** Title-casing an already title-cased string changes nothing. */
  lemma TitleCaseIdempotent(s: string)
    ensures TitleCase(TitleCase(s)) == TitleCase(s)
  {
  }

  /** The characters `str.strip()` removes, restricted to ASCII. */
  predicate IsSpace(c: char) {
    (9 <= c as int <= 13) || (28 <= c as int <= 32)
  }

  /** `r` is `s` with exactly its leading `a` and its trailing whitespace removed. */
  predicate StrippedAt(s: string, r: string, a: int) {
    && 0 <= a && a + |r| <= |s|
    && s[a..a + |r|] == r
    && (forall i :: 0 <= i < a ==> IsSpace(s[i]))
    && (forall i :: a + |r| <= i < |s| ==> IsSpace(s[i]))
  }

  /** One more leading whitespace character in front keeps `r` a stripped slice, one position further on. */
  lemma StrippedAtCons(s: string, r: string, a: int)
    requires |s| > 0 && IsSpace(s[0])
    requires StrippedAt(s[1..], r, a)
    ensures StrippedAt(s, r, a + 1)
  {
    assert s[a + 1..a + 1 + |r|] == s[1..][a..a + |r|];
    forall i | a + 1 + |r| <= i < |s|
      ensures IsSpace(s[i])
    {
      assert s[i] == s[1..][i - 1];
    }
    forall i | 0 <= i < a + 1
      ensures IsSpace(s[i])
    {
      if i > 0 {
        assert s[i] == s[1..][i - 1];
      }
    }
  }

  function TrimStart(s: string): (r: string)
    ensures StrippedAt(s, r, |s| - |r|)
    ensures |r| > 0 ==> !IsSpace(r[0])
    decreases |s|
  {
    if |s| > 0 && IsSpace(s[0]) then
      var r := TrimStart(s[1..]);
      StrippedAtCons(s, r, |s[1..]| - |r|);
      r
    else s
  }

  function TrimEnd(s: string): (r: string)
    ensures StrippedAt(s, r, 0)
    ensures |r| > 0 ==> !IsSpace(r[|r| - 1])
    decreases |s|
  {
    if |s| > 0 && IsSpace(s[|s| - 1]) then
      var r := TrimEnd(s[..|s| - 1]);
      assert s[..|r|] == s[..|s| - 1][..|r|];
      r
    else s
  }

  /** Trimming the front and then the back of what is left strips the original string. */
  lemma StrippedTwice(s: string, front: string, r: string)
    requires StrippedAt(s, front, |s| - |front|)
    requires StrippedAt(front, r, 0)
    ensures StrippedAt(s, r, |s| - |front|)
  {
    var a := |s| - |front|;
    assert s[a..a + |r|] == front[..|r|];
    forall i | a + |r| <= i < |s|
      ensures IsSpace(s[i])
    {
      assert s[i] == s[a..a + |front|][i - a] == front[i - a];
    }
  }

  /** Python's `s.strip()`: the largest slice with no whitespace at either end. */
  function Strip(s: string): (r: string)
    ensures exists a :: StrippedAt(s, r, a)
    ensures |r| > 0 ==> !IsSpace(r[0]) && !IsSpace(r[|r| - 1])
  {
    var front := TrimStart(s);
    var r := TrimEnd(front);
    StrippedTwice(s, front, r);
    r
  }

  /** Stripping only removes characters, so a character absent from `s` is absent from `s.strip()`. */
  lemma StripKeepsOut(s: string, c: char)
    requires c !in s
    ensures c !in Strip(s)
  {
    var r := Strip(s);
    var a :| StrippedAt(s, r, a);
    forall j | 0 <= j < |r|
      ensures r[j] != c
    {
      assert r[j] == s[a..a + |r|][j] == s[a + j];
    }
  }

  /** No whitespace at either end of `s`. */
  predicate Unpadded(s: string) {
    |s| > 0 ==> !IsSpace(s[0]) && !IsSpace(s[|s| - 1])
  }

  /** Stripping a string with no whitespace at either end changes nothing. */
  lemma StripUnpadded(s: string)
    requires Unpadded(s)
    ensures Strip(s) == s
  {
    assert TrimStart(s) == s;
    assert TrimEnd(s) == s;
  }

  predicate IsDigit(c: char) { '0' <= c <= '9' }

  function DigitChar(d: int): (c: char)
    requires 0 <= d < 10
    ensures IsDigit(c)
  {
    ('0' as int + d) as char
  }

  /** Python's `str(n)` for a natural number: decimal digits, no leading zero. */
  function Decimal(n: nat): (r: string)
    ensures |r| > 0
    ensures forall i :: 0 <= i < |r| ==> IsDigit(r[i])
    ensures r[0] == '0' ==> n == 0
    decreases n
  {
    if n < 10 then [DigitChar(n)] else Decimal(n / 10) + [DigitChar(n % 10)]
  }

  /** Reads a string of decimal digits back as a number (Python's `int(s)`). */
  function ParseDecimal(s: string): nat
    requires forall i :: 0 <= i < |s| ==> IsDigit(s[i])
    decreases |s|
  {
    if |s| == 0 then 0
    else
      assert IsDigit(s[|s| - 1]);
      ParseDecimal(s[..|s| - 1]) * 10 + (s[|s| - 1] as int - '0' as int)
  }

  /** Rendering a number in decimal loses nothing: reading it back gives the number. */
  lemma {:induction false} DecimalRoundTrip(n: nat)
    ensures ParseDecimal(Decimal(n)) == n
    decreases n
  {
    if n >= 10 {
      var r := Decimal(n);
      assert r[..|r| - 1] == Decimal(n / 10);
      DecimalRoundTrip(n / 10);
    }
  }

  /** Python's `a <= b` on strings: lexicographic order on code points, a prefix first. */
  predicate LexLe(a: string, b: string)
    decreases |a|
  {
    |a| == 0 || (|b| > 0 && (a[0] < b[0] || (a[0] == b[0] && LexLe(a[1..], b[1..]))))
  }

  lemma {:induction false} LexLeReflexive(a: string)
    ensures LexLe(a, a)
    decreases |a|
  {
    if |a| > 0 {
      LexLeReflexive(a[1..]);
    }
  }

  lemma {:induction false} LexLeTotal(a: string, b: string)
    ensures LexLe(a, b) || LexLe(b, a)
    decreases |a|
  {
    if |a| > 0 && |b| > 0 && a[0] == b[0] {
      LexLeTotal(a[1..], b[1..]);
    }
  }

  lemma {:induction false} LexLeTransitive(a: string, b: string, c: string)
    requires LexLe(a, b) && LexLe(b, c)
    ensures LexLe(a, c)
    decreases |a|
  {
    if |a| > 0 && a[0] == b[0] && b[0] == c[0] {
      LexLeTransitive(a[1..], b[1..], c[1..]);
    }
  }

  lemma {:induction false} LexLeAntisymmetric(a: string, b: string)
    requires LexLe(a, b) && LexLe(b, a)
    ensures a == b
    decreases |a|
  {
    if |a| > 0 {
      LexLeAntisymmetric(a[1..], b[1..]);
      assert a == [a[0]] + a[1..];
      assert b == [b[0]] + b[1..];
    }
  }
}

=== FILE: train_config.dfy ===
/**
 The training configuration `train` hands to the job runner, as a record,
 and the steps that assemble it: the fixed layout, the cadences, the LoRA
 network settings with their optional `network_kwargs`, and the removal of
 an empty trigger word.
 */
module TrainConfig {
  import opened Outcomes
  import Paths
  import MemoryPlan

  /** A value stored under `network_kwargs`. */
  datatype KwargValue = PathArg(path: string) | LayersArg(layers: seq<string>)

  const PretrainedPathKey := "pretrained_path"
  const OnlyIfContainsKey := "only_if_contains"

  datatype Network = Network(kind: string, linear: int, linearAlpha: int, kwargs: Option<map<string, KwargValue>>)

  datatype Save = Save(dtype: string, saveEvery: int, maxStepSavesToKeep: int)

  datatype Dataset = Dataset(
    folderPath: string,
    captionExt: string,
    captionDropoutRate: real,
    shuffleTokens: bool,
    cacheLatentsToDisk: bool,
    cacheLatents: bool,
    resolution: seq<int>)

  datatype Ema = Ema(useEma: bool, emaDecay: real)

  datatype TrainSettings = TrainSettings(
    batchSize: int,
    steps: int,
    gradientAccumulationSteps: int,
    trainUnet: bool,
    trainTextEncoder: bool,
    contentOrStyle: string,
    gradientCheckpointing: bool,
    noiseScheduler: string,
    optimizer: string,
    lr: real,
    ema: Ema,
    dtype: string)

  datatype Model = Model(nameOrPath: string, isFlux: bool, quantize: bool)

  datatype Sample = Sample(
    sampler: string,
    sampleEvery: int,
    width: int,
    height: int,
    prompts: seq<string>,
    neg: string,
    seed: int,
    walkSeed: bool,
    guidanceScale: real,
    sampleSteps: int)

  /** The one entry of the configuration's `process` list; `triggerWord` is `None` once the key is deleted. */
  datatype Process = Process(
    kind: string,
    trainingFolder: string,
    device: string,
    triggerWord: Option<string>,
    network: Network,
    save: Save,
    datasets: seq<Dataset>,
    train: TrainSettings,
    model: Model,
    sample: Sample)

  datatype Meta = Meta(name: string, version: string)

  datatype Config = Config(job: string, name: string, process: Process, meta: Meta)

  /** The run parameters the configuration is assembled from, after the decisions `train` takes first. */
  datatype Params = Params(
    triggerWord: string,
    loraRank: int,
    steps: int,
    batchSize: int,
    resolutions: seq<int>,
    learningRate: real,
    captionDropoutRate: real,
    optimizer: string,
    cacheLatentsToDisk: bool,
    tracking: bool,
    saveInterval: int,
    sampleInterval: int,
    samplePrompts: seq<string>,
    plan: MemoryPlan.Plan,
    pretrainedPath: Option<string>,
    layers: seq<string>)

  predicate HasKwarg(net: Network, key: string) {
    net.kwargs.Some? && key in net.kwargs.value
  }

  /**
   `network["network_kwargs"][key] = value`, creating the mapping first when
   it is absent: the key gets the value and every other entry survives.
   */
  function SetKwarg(net: Network, key: string, value: KwargValue): (n: Network)
    ensures HasKwarg(n, key) && n.kwargs.value[key] == value
    ensures forall k :: k != key ==> (HasKwarg(n, k) <==> HasKwarg(net, k))
    ensures forall k :: k != key && HasKwarg(net, k) ==> HasKwarg(n, k) && n.kwargs.value[k] == net.kwargs.value[k]
    ensures n.(kwargs := net.kwargs) == net
  {
    var existing := if net.kwargs.Some? then net.kwargs.value else map[];
    net.(kwargs := Some(existing[key := value]))
  }

  /** Setting two different keys gives the same network in either order: neither clobbers the other. */
  lemma SetKwargCommutes(net: Network, k1: string, v1: KwargValue, k2: string, v2: KwargValue)
    requires k1 != k2
    ensures SetKwarg(SetKwarg(net, k1, v1), k2, v2) == SetKwarg(SetKwarg(net, k2, v2), k1, v1)
  {
    var m := if net.kwargs.Some? then net.kwargs.value else map[];
    assert SetKwarg(net, k1, v1).kwargs == Some(m[k1 := v1]);
    assert SetKwarg(net, k2, v2).kwargs == Some(m[k2 := v2]);
    assert m[k1 := v1][k2 := v2] == m[k2 := v2][k1 := v1];
  }

  /** The configuration as `train` builds it before the job runs. */
  function Build(p: Params): (c: Config)
    ensures c.process.network.linear == c.process.network.linearAlpha == p.loraRank
    ensures p.tracking ==> c.process.save.saveEvery == p.saveInterval
    ensures !p.tracking ==> c.process.save.saveEvery == p.steps + 1
    ensures p.tracking && |p.samplePrompts| > 0 ==> c.process.sample.sampleEvery == p.sampleInterval
    ensures !(p.tracking && |p.samplePrompts| > 0) ==> c.process.sample.sampleEvery == p.steps + 1
    ensures HasKwarg(c.process.network, PretrainedPathKey) <==> p.pretrainedPath.Some?
    ensures p.pretrainedPath.Some? ==>
      c.process.network.kwargs.value[PretrainedPathKey] == PathArg(p.pretrainedPath.value)
    ensures HasKwarg(c.process.network, OnlyIfContainsKey) <==> |p.layers| > 0
    ensures |p.layers| > 0 ==> c.process.network.kwargs.value[OnlyIfContainsKey] == LayersArg(p.layers)
    ensures c.process.network.kwargs.None? <==> p.pretrainedPath.None? && |p.layers| == 0
    ensures c.process.network.kwargs.Some? ==>
      c.process.network.kwargs.value.Keys <= {PretrainedPathKey, OnlyIfContainsKey}
    ensures c.process.train.gradientCheckpointing == p.plan.gradientCheckpointing
    ensures c.process.model.quantize == p.plan.quantize
    ensures c.process.triggerWord == Some(p.triggerWord)
    ensures |c.process.datasets| == 1 && c.process.datasets[0].resolution == p.resolutions
  {
    var base := Network("lora", p.loraRank, p.loraRank, None);
    var withPath :=
      if p.pretrainedPath.Some? then SetKwarg(base, PretrainedPathKey, PathArg(p.pretrainedPath.value))
      else base;
    var network :=
      if |p.layers| > 0 then SetKwarg(withPath, OnlyIfContainsKey, LayersArg(p.layers))
      else withPath;
    var process := Process(
      "custom_sd_trainer",
      Paths.OutputDir,
      "cuda:0",
      Some(p.triggerWord),
      network,
      Save("float16", if p.tracking then p.saveInterval else p.steps + 1, 1),
      [Dataset(Paths.InputDir, "txt", p.captionDropoutRate, false, p.cacheLatentsToDisk, true, p.resolutions)],
      TrainSettings(
        p.batchSize, p.steps, 1, true, false, "balanced", p.plan.gradientCheckpointing,
        "flowmatch", p.optimizer, p.learningRate, Ema(true, 0.99), "bf16"),
      Model(Paths.WeightsPath, true, p.plan.quantize),
      Sample(
        "flowmatch",
        if p.tracking && |p.samplePrompts| > 0 then p.sampleInterval else p.steps + 1,
        1024, 1024, p.samplePrompts, "", 42, true, 3.5, 28));
    Config("custom_job", Paths.JobName, process, Meta("[name]", "1.0"))
  }

  /**
   A cadence of `steps + 1` means "never": no step of a run of `steps` steps
   is a multiple of it, so without tracking nothing is saved or sampled
   before the end.
   */
  lemma UntrackedRunNeverSavesOrSamples(p: Params, k: int)
    requires !p.tracking && p.steps >= 0
    requires 1 <= k <= p.steps
    ensures k % Build(p).process.save.saveEvery != 0
    ensures k % Build(p).process.sample.sampleEvery != 0
    ensures Build(p).process.save.saveEvery > p.steps && Build(p).process.sample.sampleEvery > p.steps
  {
  }

  /** `del config["process"][0]["trigger_word"]` when the trigger word is empty; nothing else changes. */
  function DropEmptyTriggerWord(c: Config, triggerWord: string): (r: Config)
    ensures triggerWord == "" ==> r.process.triggerWord.None?
    ensures triggerWord != "" ==> r == c
    ensures r.(process := r.process.(triggerWord := c.process.triggerWord)) == c
  {
    if triggerWord == "" then c.(process := c.process.(triggerWord := None)) else c
  }

  /**
   The shape the job runner receives: LoRA alpha equal to the rank, one
   dataset, `network_kwargs` absent or holding only a path under
   `pretrained_path` and a non-empty layer list under `only_if_contains`,
   and no empty trigger word.
   */
  predicate Ready(c: Config) {
    && c.process.network.linear == c.process.network.linearAlpha
    && |c.process.datasets| == 1
    && (c.process.network.kwargs.Some? ==>
         var kw := c.process.network.kwargs.value;
         && |kw| > 0
         && kw.Keys <= {PretrainedPathKey, OnlyIfContainsKey}
         && (PretrainedPathKey in kw ==> kw[PretrainedPathKey].PathArg?)
         && (OnlyIfContainsKey in kw ==> kw[OnlyIfContainsKey].LayersArg? && |kw[OnlyIfContainsKey].layers| > 0))
    && (c.process.triggerWord.Some? ==> |c.process.triggerWord.value| > 0)
  }

  /** Building the configuration and then dropping an empty trigger word always gives a ready configuration. */
  lemma BuiltConfigIsReady(p: Params)
    ensures Ready(DropEmptyTriggerWord(Build(p), p.triggerWord))
  {
  }
}

=== FILE: train_flow.dfy ===
/**
 The order of decisions at the top of `train`, from the early return for a
 LoRA used instead of training, through the input checks and downloads, to
 the configuration handed to the job runner. Everything the source asks of
 the outside world (downloads, the layer matcher, the GPU, the archive) is
 an `Environment` parameter; the job run itself is not modelled.
 */
module Train {
  import opened Outcomes
  import opened Text
  import Paths
  import LoraDownload
  import MemoryPlan
  import TrainConfig
  import ZipExtract

  /** The parameters of `train` that the modelled rules read. */
  datatype Inputs = Inputs(
    inputImages: Option<string>,
    triggerWord: string,
    steps: int,
    learningRate: real,
    batchSize: int,
    resolutions: seq<int>,
    loraRank: int,
    captionDropoutRate: real,
    optimizer: string,
    cacheLatentsToDisk: bool,
    layersRegex: Option<string>,
    gradientCheckpointing: bool,
    wandbApiKey: Option<string>,
    wandbProject: string,
    wandbRun: Option<string>,
    wandbEntity: Option<string>,
    wandbSampleInterval: int,
    wandbSamplePrompts: Option<string>,
    wandbSaveInterval: int,
    skipTrainingUrl: Option<string>,
    pretrainedLoraUrl: Option<string>,
    keepOptimizerForResume: bool)

  /** The answers of the outside world during one run. */
  datatype Environment = Environment(
    hubFetchOk: bool,
    pretrainedFetch: LoraDownload.Fetch,
    matchedLayers: seq<string>,
    totalGpuMemory: int,
    weightsPresent: bool,
    weightsFetchOk: bool,
    archive: ZipExtract.Archive)

  /** The experiment-tracking run created when a W&B key is given. */
  datatype Tracking = Tracking(
    project: string,
    entity: Option<string>,
    runName: Option<string>,
    samplePrompts: seq<string>,
    pretrainedLoraUrl: Option<string>,
    isFineTuningMode: bool)

  /** How a run that raises nothing ends up. */
  datatype Run =
    | UsedHubLora(weights: string, archived: string)
    | Prepared(config: TrainConfig.Config, extracted: seq<string>, tracking: Option<Tracking>)

  /**
   The bounds the parameter declarations impose before `train` is entered;
   `resolution.split(",")` always yields at least one resolution.
   */
  predicate WithinDeclaredBounds(inputs: Inputs) {
    && 3 <= inputs.steps <= 6000
    && 1 <= inputs.loraRank <= 128
    && 0.0 <= inputs.captionDropoutRate <= 1.0
    && inputs.wandbSampleInterval >= 1
    && inputs.wandbSaveInterval >= 1
    && |inputs.resolutions| > 0
  }

  /** `[p.strip() for p in text.split("\n")]` when the text is truthy, no prompts otherwise. */
  function SamplePrompts(text: Option<string>): (prompts: seq<string>)
    ensures |prompts| > 0 <==> IsTruthy(text)
    ensures IsTruthy(text) ==> |prompts| == |Split(text.value, '\n')|
    ensures IsTruthy(text) ==> forall k :: 0 <= k < |prompts| ==> prompts[k] == Strip(Split(text.value, '\n')[k])
    ensures forall k :: 0 <= k < |prompts| ==>
      '\n' !in prompts[k] && (|prompts[k]| > 0 ==> !IsSpace(prompts[k][0]) && !IsSpace(prompts[k][|prompts[k]| - 1]))
  {
    if IsTruthy(text) then
      var lines := Split(text.value, '\n');
      var prompts := seq(|lines|, k requires 0 <= k < |lines| => Strip(lines[k]));
      forall k | 0 <= k < |prompts|
        ensures prompts[k] == Strip(lines[k]) && '\n' !in prompts[k]
      {
        StripKeepsOut(lines[k], '\n');
      }
      prompts
    else
      []
  }

  /**
   When no line of the prompt text has whitespace at either end, the prompts
   are exactly its lines: joining them with newlines gives the text back.
   */
  lemma {:induction false} UnpaddedPromptsRoundTrip(text: string)
    requires |text| > 0
    requires forall k :: 0 <= k < |Split(text, '\n')| ==> Unpadded(Split(text, '\n')[k])
    ensures Join(SamplePrompts(Some(text)), '\n') == text
  {
    var lines := Split(text, '\n');
    forall k | 0 <= k < |lines|
      ensures SamplePrompts(Some(text))[k] == lines[k]
    {
      StripUnpadded(lines[k]);
    }
    assert SamplePrompts(Some(text)) == lines;
  }

  /** `download_pretrained_lora_for_training` when the resume URL is truthy; nothing to resume from otherwise. */
  function ResumeFrom(url: Option<string>, fetch: LoraDownload.Fetch): (r: Result<Option<string>>)
    ensures !IsTruthy(url) ==> r == Ok(None)
    ensures IsTruthy(url) ==> (r.Ok? <==> LoraDownload.DownloadPretrainedLora(url.value, fetch).Ok?)
    ensures IsTruthy(url) && r.Err? ==> r.error == LoraDownload.DownloadPretrainedLora(url.value, fetch).error
    ensures r.Ok? && IsTruthy(url) ==> r.value == Some(Paths.PretrainedLoraPath)
  {
    if IsTruthy(url) then
      var path :- LoraDownload.DownloadPretrainedLora(url.value, fetch);
      Ok(Some(path))
    else
      Ok(None)
  }

  /** The layer restriction: none without a regex, `ValueError` when the regex matches nothing. */
  function LayersToOptimize(regex: Option<string>, matched: seq<string>): (r: Result<seq<string>>)
    ensures r.Ok? ==> (|r.value| > 0 <==> IsTruthy(regex))
    ensures r.Err? <==> IsTruthy(regex) && |matched| == 0
    ensures r.Err? ==> r.error == NoLayersMatched(regex.value) && KindOf(r.error) == ValueError
    ensures IsTruthy(regex) && r.Ok? ==> r.value == matched
  {
    if IsTruthy(regex) then
      if |matched| == 0 then Err(NoLayersMatched(regex.value)) else Ok(matched)
    else
      Ok([])
  }

  /** `download_weights`: fetch the base model unless it is already present. */
  function DownloadBaseWeights(present: bool, fetchOk: bool): (r: Result<string>)
    ensures r.Err? <==> !present && !fetchOk
    ensures r.Ok? ==> r.value == Paths.WeightsPath
    ensures r.Err? ==> KindOf(r.error) == CalledProcessError
  {
    if present || fetchOk then Ok(Paths.WeightsPath) else Err(DownloadToolFailed(Paths.BaseWeightsUrl))
  }

  /** `train` up to the point where the job is run, in the source's order. */
  function Train(inputs: Inputs, env: Environment): (r: Result<Run>)
    requires WithinDeclaredBounds(inputs)
    ensures r.Ok? && r.value.UsedHubLora? <==> inputs.skipTrainingUrl.Some? && r.Ok?
  {
    if inputs.skipTrainingUrl.Some? then
      var archived :- LoraDownload.DownloadHubLora(inputs.skipTrainingUrl.value, env.hubFetchOk);
      Ok(UsedHubLora(Paths.TrainedModelTar, archived))
    else if inputs.inputImages.None? then
      Err(MissingInputImages)
    else if IsTruthy(inputs.pretrainedLoraUrl) && IsTruthy(inputs.skipTrainingUrl) then
      Err(ConflictingLoraUrls)
    else
      var pretrainedPath :- ResumeFrom(inputs.pretrainedLoraUrl, env.pretrainedFetch);
      var layers :- LayersToOptimize(inputs.layersRegex, env.matchedLayers);
      var prompts := SamplePrompts(inputs.wandbSamplePrompts);
      var plan := MemoryPlan.Decide(
        inputs.gradientCheckpointing, env.totalGpuMemory, inputs.batchSize, inputs.resolutions);
      var config := TrainConfig.Build(TrainConfig.Params(
        inputs.triggerWord, inputs.loraRank, inputs.steps, inputs.batchSize, inputs.resolutions,
        inputs.learningRate, inputs.captionDropoutRate, inputs.optimizer, inputs.cacheLatentsToDisk,
        IsTruthy(inputs.wandbApiKey), inputs.wandbSaveInterval, inputs.wandbSampleInterval, prompts,
        plan, pretrainedPath, layers));
      var tracking :=
        if IsTruthy(inputs.wandbApiKey) then
          Some(Tracking(
            inputs.wandbProject, inputs.wandbEntity, inputs.wandbRun, prompts,
            inputs.pretrainedLoraUrl, inputs.pretrainedLoraUrl.Some?))
        else None;
      var _ :- DownloadBaseWeights(env.weightsPresent, env.weightsFetchOk);
      var extracted :- ZipExtract.Extracted(env.archive);
      Ok(Prepared(TrainConfig.DropEmptyTriggerWord(config, inputs.triggerWord), extracted, tracking))
  }

  /**
   A LoRA URL given to skip training decides the run on its own: `train`
   downloads it and returns, or fails on the URL or the download, and the
   images, the resume URL and everything after are never looked at.
   */
  lemma SkipUrlReturnsEarly(inputs: Inputs, env: Environment, other: Inputs, otherEnv: Environment)
    requires WithinDeclaredBounds(inputs) && WithinDeclaredBounds(other)
    requires inputs.skipTrainingUrl.Some? && other.skipTrainingUrl == inputs.skipTrainingUrl
    requires otherEnv.hubFetchOk == env.hubFetchOk
    ensures Train(inputs, env) == Train(other, otherEnv)
    ensures Train(inputs, env).Ok? ==> Train(inputs, env).value == UsedHubLora(Paths.TrainedModelTar, Paths.HubLoraPath)
    ensures Train(inputs, env).Err? ==>
      Train(inputs, env).error in {InvalidLoraUrl(inputs.skipTrainingUrl.value), DownloadToolFailed(inputs.skipTrainingUrl.value)}
  {
  }

  /** The check that rejects both URLs together never fires: the early return has already happened. */
  lemma ConflictErrorUnreachable(inputs: Inputs, env: Environment)
    requires WithinDeclaredBounds(inputs)
    ensures Train(inputs, env) != Err(ConflictingLoraUrls)
  {
  }

  /** Without a skip URL, missing input images are the first thing reported. */
  lemma MissingImagesReportedFirst(inputs: Inputs, env: Environment)
    requires WithinDeclaredBounds(inputs)
    requires inputs.skipTrainingUrl.None? && inputs.inputImages.None?
    ensures Train(inputs, env) == Err(MissingInputImages)
    ensures KindOf(Train(inputs, env).error) == ValueError
  {
  }

  /**
   The resume download comes before the layer check: a failing download is
   reported even when the layer regex also matches nothing.
   */
  lemma ResumeDownloadFailsBeforeLayerCheck(inputs: Inputs, env: Environment)
    requires WithinDeclaredBounds(inputs)
    requires inputs.skipTrainingUrl.None? && inputs.inputImages.Some?
    requires IsTruthy(inputs.pretrainedLoraUrl)
    requires LoraDownload.DownloadPretrainedLora(inputs.pretrainedLoraUrl.value, env.pretrainedFetch).Err?
    ensures Train(inputs, env) == Err(LoraDownload.DownloadPretrainedLora(inputs.pretrainedLoraUrl.value, env.pretrainedFetch).error)
  {
  }

  /**
   What a prepared run hands to the job runner: a ready configuration that
   resumes from the downloaded LoRA exactly when the resume URL is truthy,
   restricts layers exactly when a regex is given, carries the trigger word
   exactly when it is non-empty, never saves or samples early without
   tracking, and the entries extracted from the archive.
   */
  lemma PreparedRun(inputs: Inputs, env: Environment)
    requires WithinDeclaredBounds(inputs)
    requires Train(inputs, env).Ok? && Train(inputs, env).value.Prepared?
    ensures var run := Train(inputs, env).value;
      var network := run.config.process.network;
      && TrainConfig.Ready(run.config)
      && (TrainConfig.HasKwarg(network, TrainConfig.PretrainedPathKey) <==> IsTruthy(inputs.pretrainedLoraUrl))
      && (IsTruthy(inputs.pretrainedLoraUrl) ==>
            network.kwargs.value[TrainConfig.PretrainedPathKey] == TrainConfig.PathArg(Paths.PretrainedLoraPath))
      && (TrainConfig.HasKwarg(network, TrainConfig.OnlyIfContainsKey) <==> IsTruthy(inputs.layersRegex))
      && (run.config.process.triggerWord.Some? <==> inputs.triggerWord != "")
      && (!IsTruthy(inputs.wandbApiKey) ==>
            run.config.process.save.saveEvery > inputs.steps && run.config.process.sample.sampleEvery > inputs.steps)
      && (run.tracking.Some? <==> IsTruthy(inputs.wandbApiKey))
      && run.extracted == ZipExtract.KeptEntries(env.archive.entries)
  {
    var pretrainedPath := ResumeFrom(inputs.pretrainedLoraUrl, env.pretrainedFetch).value;
    var layers := LayersToOptimize(inputs.layersRegex, env.matchedLayers).value;
    var prompts := SamplePrompts(inputs.wandbSamplePrompts);
    var plan := MemoryPlan.Decide(
      inputs.gradientCheckpointing, env.totalGpuMemory, inputs.batchSize, inputs.resolutions);
    var params := TrainConfig.Params(
      inputs.triggerWord, inputs.loraRank, inputs.steps, inputs.batchSize, inputs.resolutions,
      inputs.learningRate, inputs.captionDropoutRate, inputs.optimizer, inputs.cacheLatentsToDisk,
      IsTruthy(inputs.wandbApiKey), inputs.wandbSaveInterval, inputs.wandbSampleInterval, prompts,
      plan, pretrainedPath, layers);
    TrainConfig.BuiltConfigIsReady(params);
  }

  /**
   A prepared configuration carries the memory plan decided from the user's
   flag and the GPU's memory, and its cadences follow the tracking inputs:
   saving at the W&B interval exactly when a W&B key is given, sampling at
   the W&B interval exactly when a key and sample prompts are both given,
   and `steps + 1` (never) otherwise.
   */
  lemma PreparedRunFollowsInputs(inputs: Inputs, env: Environment)
    requires WithinDeclaredBounds(inputs)
    requires Train(inputs, env).Ok? && Train(inputs, env).value.Prepared?
    ensures var process := Train(inputs, env).value.config.process;
      var plan := MemoryPlan.Decide(
        inputs.gradientCheckpointing, env.totalGpuMemory, inputs.batchSize, inputs.resolutions);
      && process.train.gradientCheckpointing == plan.gradientCheckpointing
      && process.model.quantize == plan.quantize
      && process.save.saveEvery == (if IsTruthy(inputs.wandbApiKey) then inputs.wandbSaveInterval else inputs.steps + 1)
      && process.sample.sampleEvery ==
           (if IsTruthy(inputs.wandbApiKey) && IsTruthy(inputs.wandbSamplePrompts) then inputs.wandbSampleInterval
            else inputs.steps + 1)
  {
    var pretrainedPath := ResumeFrom(inputs.pretrainedLoraUrl, env.pretrainedFetch).value;
    var layers := LayersToOptimize(inputs.layersRegex, env.matchedLayers).value;
    var prompts := SamplePrompts(inputs.wandbSamplePrompts);
    var plan := MemoryPlan.Decide(
      inputs.gradientCheckpointing, env.totalGpuMemory, inputs.batchSize, inputs.resolutions);
    var params := TrainConfig.Params(
      inputs.triggerWord, inputs.loraRank, inputs.steps, inputs.batchSize, inputs.resolutions,
      inputs.learningRate, inputs.captionDropoutRate, inputs.optimizer, inputs.cacheLatentsToDisk,
      IsTruthy(inputs.wandbApiKey), inputs.wandbSaveInterval, inputs.wandbSampleInterval, prompts,
      plan, pretrainedPath, layers);
    var built := TrainConfig.Build(params);
    assert Train(inputs, env).value.config == TrainConfig.DropEmptyTriggerWord(built, inputs.triggerWord);
    assert Train(inputs, env).value.config.process.(triggerWord := built.process.triggerWord) == built.process;
  }

  /**
   The last two steps before the job runs can still fail the run: a base
   model that is absent and cannot be downloaded, and then an input that is
   not a zip archive. When neither happens the run is prepared.
   */
  lemma LateFailures(inputs: Inputs, env: Environment)
    requires WithinDeclaredBounds(inputs)
    requires inputs.skipTrainingUrl.None? && inputs.inputImages.Some?
    requires ResumeFrom(inputs.pretrainedLoraUrl, env.pretrainedFetch).Ok?
    requires LayersToOptimize(inputs.layersRegex, env.matchedLayers).Ok?
    ensures !env.weightsPresent && !env.weightsFetchOk ==> Train(inputs, env) == Err(DownloadToolFailed(Paths.BaseWeightsUrl))
    ensures (env.weightsPresent || env.weightsFetchOk) && !env.archive.isZip ==> Train(inputs, env) == Err(NotAZipFile)
    ensures (env.weightsPresent || env.weightsFetchOk) && env.archive.isZip ==>
      Train(inputs, env).Ok? && Train(inputs, env).value.Prepared?
  {
  }

  /**
   The tracking run records fine-tuning mode with `is not None`, while the
   run resumes only from a truthy URL: an empty resume URL is recorded as
   fine-tuning although training starts from scratch.
   */
  lemma EmptyResumeUrlRecordedAsFineTuning(inputs: Inputs, env: Environment)
    requires WithinDeclaredBounds(inputs)
    requires Train(inputs, env).Ok? && Train(inputs, env).value.Prepared?
    requires IsTruthy(inputs.wandbApiKey) && inputs.pretrainedLoraUrl == Some("")
    ensures Train(inputs, env).value.tracking.Some?
    ensures Train(inputs, env).value.tracking.value.isFineTuningMode
    ensures !TrainConfig.HasKwarg(Train(inputs, env).value.config.process.network, TrainConfig.PretrainedPathKey)
  {
  }
}

=== FILE: zip_extract.dfy ===
/**
 `extract_zip`: refuse anything that is not a zip archive, then extract
 every entry except macOS metadata (entries under `__MACOSX/` and
 AppleDouble files named `._*`), counting the entries extracted. An archive
 is modelled by its validity and its entry names in archive order.
 */
module ZipExtract {
  import opened Outcomes
  import opened Text

  const MacResourceDir := "__MACOSX/"
  const AppleDoublePrefix := "._"

  datatype Archive = Archive(isZip: bool, entries: seq<string>)

  /** An entry that is extracted: its name starts with neither metadata prefix. */
  predicate Kept(name: string) {
    !StartsWith(name, MacResourceDir) && !StartsWith(name, AppleDoublePrefix)
  }

  /** Reference definition: the kept entries, in archive order. */
  function KeptEntries(names: seq<string>): (r: seq<string>)
    ensures |r| <= |names|
    ensures forall n :: n in r <==> n in names && Kept(n)
    decreases |names|
  {
    if |names| == 0 then []
    else
      var init := KeptEntries(names[..|names| - 1]);
      var last := names[|names| - 1];
      assert names == names[..|names| - 1] + [last];
      if Kept(last) then init + [last] else init
  }

  /** Filtering distributes over concatenation, so the kept entries keep their archive order. */
  lemma {:induction false} KeptEntriesAppend(a: seq<string>, b: seq<string>)
    ensures KeptEntries(a + b) == KeptEntries(a) + KeptEntries(b)
    decreases |b|
  {
    if |b| == 0 {
      assert a + b == a;
    } else {
      var front := b[..|b| - 1];
      assert (a + b)[..|a + b| - 1] == a + front;
      KeptEntriesAppend(a, front);
    }
  }

  /** Extracting an already filtered list again skips nothing. */
  lemma {:induction false} KeptEntriesIdempotent(names: seq<string>)
    ensures KeptEntries(KeptEntries(names)) == KeptEntries(names)
    decreases |names|
  {
    if |names| > 0 {
      var front := names[..|names| - 1];
      var last := names[|names| - 1];
      KeptEntriesIdempotent(front);
      if Kept(last) {
        var kf := KeptEntries(front);
        KeptEntriesAppend(kf, [last]);
        assert KeptEntries([last]) == KeptEntries([] + [last]);
        assert [last][..0] == [];
      }
    }
  }

  /** What `extract_zip` leaves behind: the kept entries of a zip archive, or `ValueError`. */
  function Extracted(archive: Archive): (r: Result<seq<string>>)
    ensures r.Ok? <==> archive.isZip
    ensures r.Ok? ==> forall n :: n in r.value <==> n in archive.entries && Kept(n)
  {
    if archive.isZip then Ok(KeptEntries(archive.entries)) else Err(NotAZipFile)
  }

  /**
   `extract_zip`: a non-zip input raises `ValueError`; otherwise the loop
   extracts each kept entry in turn and counts it.
   */
  method ExtractZip(archive: Archive) returns (r: Result<seq<string>>, count: nat)
    ensures r == Extracted(archive)
    ensures r.Ok? <==> archive.isZip
    ensures r.Err? ==> r.error == NotAZipFile && KindOf(r.error) == ValueError
    ensures r.Ok? ==> r.value == KeptEntries(archive.entries)
    ensures r.Ok? ==> count == |r.value|
    ensures r.Ok? ==> forall n :: n in r.value <==> n in archive.entries && Kept(n)
  {
    if !archive.isZip {
      return Err(NotAZipFile), 0;
    }
    var extracted: seq<string> := [];
    count := 0;
    var i := 0;
    while i < |archive.entries|
      invariant 0 <= i <= |archive.entries|
      invariant extracted == KeptEntries(archive.entries[..i])
      invariant count == |extracted|
    {
      var name := archive.entries[i];
      assert archive.entries[..i + 1][..i] == archive.entries[..i];
      if !StartsWith(name, MacResourceDir) && !StartsWith(name, AppleDoublePrefix) {
        extracted := extracted + [name];
        count := count + 1;
      }
      i := i + 1;
    }
    assert archive.entries[..i] == archive.entries;
    r := Ok(extracted);
  }

  /**
   Only the start of the whole entry name is tested: metadata inside a
   sub-directory is extracted, while `__MACOSX/` trees and top-level `._`
   files are not.
   */
  lemma {:induction false} PrefixOnlyAtTop()
    ensures Kept("photos/._cat.jpg")
    ensures !Kept(MacResourceDir + "photos/cat.jpg")
    ensures !Kept(AppleDoublePrefix + "cat.jpg")
  {
    var name := "photos/._cat.jpg";
    assert name[0] == 'p' && name[0] != MacResourceDir[0] && name[0] != AppleDoublePrefix[0];
  }
}
